=== FILE: README.md ===
# Megascans library downloader — a Dafny model

The program syncs a Megascans (Quixel) account's purchased assets to a local
folder. At startup it loads a JSON ledger that holds the downloads folder and
the assets already downloaded. If the ledger does not exist, it prompts for
the folder and creates the file. Next it creates a session from prompted
credentials and verifies it against the account service, re-prompting on
401/403. It then fetches the catalog of acquired assets and filters out
every asset whose identifier the ledger holds. Each remaining asset is
downloaded in three steps: post a download manifest, fetch the payload, and
write `folder/<id>.zip`. After each successful download the asset is
appended to the ledger. The first failure stops the program.

The model keeps that logic and replaces the outside world with data. Each
HTTP reply, prompt answer and disk outcome is a value in a script that the
caller supplies. The ledger file is a value that every operation re-reads.
The per-asset download and ledger-rewrite replies are a function from the
asset to its script.

Modules, one per file:

- `Wrappers`: `Option`, `Result`, `Outcome`.
- `Http`: the three status codes the program tests.
- `Prompts`: answers as a script, where a missing answer is a read failure.
- `Assets`: the acquired asset record and its identifiers.
- `Manifest`: the download manifest.
- `Auth`: session creation and the re-authentication state machine.
- `Catalog`: fetching the acquired-asset list.
- `Download`: the three download steps and the archive path.
- `Ledger`: loading, bootstrapping and updating the ledger, plus the dedup check.
- `Reconcile`: the filter loop and the download loop of `main`.
- `App`: the whole run, composed the way `main` composes it.
- `Scenario`: a worked example.

The program has some quirks, and the model records them as written:

- **Non-200 catalog reply.** `GetAcquiredAssets` returns no list and no error for any status other than 200. `main` then dereferences the missing list. The model calls this `NilNoError`, and the run ends `Crashed`.
- **Manifest status other than 200, 401 or 403.** `DownloadAsset` returns no path and no error. The loop then dereferences the missing path. The model calls this `NilResult`, and the loop ends `CrashedAt(k)`.
- **401/403 manifest reply.** The process exits. The model calls this `Fatal`, and the loop ends `AbortedAt(k, Unauthorized(status))`.
- **Swallowed load error.** `isAlreadyDownloaded` tests for an empty list before it tests for an error. A failed reload yields an empty list, so the error branch can never run. An unreadable ledger makes every asset pending, and the filter loop never stops the program.
- **Swallowed write error.** `addAssetToSuccessfulDownloads` ignores a failed rewrite. The download loop carries on, so the ledger can lose entries, but it never gains one whose archive was not written.
- **Incomplete archive left behind.** `saveDownloadToDisk` creates the file before it writes. A write error or a short write returns an error, and `main` exits without removing the file. The model records that file as the loop's `partial` archive.
- **Any other status authenticates.** Every authentication status other than 401/403, including 500, counts as success.
- **Two authentication checks.** `main` authenticates, and `GetAcquiredAssets` authenticates again. `App.Sync` does the same.

## Model

| member | source | states |
|---|---|---|
| Prompts.Read | megascans/megascans.go:157-177 | a prompt consumes the next answer and leaves the rest; at the end of input the read fails and nothing is consumed |
| Manifest.NewDownloadManifest | megascans/megascans.go:56-65 | the manifest names the asset's identifier; highpoly, ztool, albedo LODs and brushes are on; the mesh type is FBX; lower-LOD normals stay off because they are never set |
| Manifest.ManifestDeterminedById | megascans/megascans.go:56-65 | two assets get equal manifests exactly when their identifiers are equal, so resolution and EXR access never reach the request |
| Auth.NewUser | megascans/megascans.go:67-82 | creation succeeds exactly when the e-mail answer and then the token answer are both read; the session then holds those two answers, is not yet authenticated, and exactly two answers are consumed |
| Auth.Reprompt | megascans/megascans.go:126-145 | after a rejection, a previously authenticated session is asked only for an e-mail and keeps its token; otherwise the token and then the e-mail are asked for; a token read before a failed e-mail prompt is kept; a failed prompt keeps the e-mail; the flag is unchanged |
| Auth.Authenticate | megascans/megascans.go:92-155 | success sets the authenticated flag; the flag never goes from true to false; a failure leaves the flag unchanged; a session that authenticated before keeps its token; each call consumes at least one reply |
| Auth.AuthenticateLoop | megascans/megascans.go:126-154 | the recursive retry written as a loop gives the same session, outcome and unread scripts as the recursive definition |
| Auth.RetryIsTail | megascans/megascans.go:146-153 | after a rejection whose prompts succeed, the exchange's result is the retry's result, since setting the flag again after a successful retry changes nothing |
| Auth.AnyOtherStatusAuthenticates | megascans/megascans.go:126-154 | any status other than 401/403 ends the exchange at once as authenticated with the flag set and no prompts read |
| Auth.FirstRejectionReplacesBoth | megascans/megascans.go:134-147 | for a session that never authenticated, a rejection replaces the token with the first answer and the e-mail with the second, then retries with both |
| Auth.LaterRejectionReplacesEmail | megascans/megascans.go:128-133 | for a session that authenticated before, a rejection replaces only the e-mail and retries with the old token |
| Auth.PromptFailureEndsExchange | megascans/megascans.go:129-143 | a failed prompt after a rejection ends the exchange with a prompt error; no further request is made and the flag is not set |
| Auth.FirstRejectionStep | megascans/megascans.go:134-147 | a first-ever rejection with both prompts answered continues exactly as a fresh exchange for the typed token and e-mail |
| Auth.RetryUntilAccepted | megascans/megascans.go:126-154 | for a session that never authenticated, n rejections (each a 401 or a 403) and then an acceptance (any other status) end authenticated after exactly n+1 replies and 2n answers, holding the last token and e-mail typed |
| Catalog.GetAcquiredAssets | megascans/megascans.go:179-212 | the list is returned, unchanged and in order, exactly when authentication succeeds and the reply is a 200 with a non-empty decoded list; a decoded empty list is an error; a non-200 status gives neither a list nor an error; an authentication error is passed on |
| Download.RequestDownload | megascans/megascans.go:284-318 | the payload is returned unchanged exactly when the status is 200 and the body is non-empty; any other status is an error carrying that status; an empty 200 body is an error |
| Download.SaveDownloadToDisk | megascans/megascans.go:320-339 | saving succeeds exactly when the write reports the payload's full length; a short write is an error even though the write reported none |
| Download.DownloadAsset | megascans/megascans.go:214-282 | the first request posts the asset's manifest; the result is the path `folder/<id>.zip` exactly when the manifest is a 200 with an identifier and the payload and disk steps succeed, after exactly three requests; a 401/403 manifest reply is fatal, and any other non-200 status yields neither a path nor an error, each after one request |
| Download.DownloadAssetFailures | megascans/megascans.go:235-280 | a failed download reports the failing step's own error unchanged: a transport failure, an unreadable or undecodable manifest body, the payload step's error after two requests, or the disk step's error after three requests, the third creating the archive path; the download leaves an incomplete archive exactly when the disk step is reached, the create succeeds and the write then fails or falls short |
| Download.OutputPath | megascans/megascans.go:276 | the archive path is the folder, a separator, the asset identifier and `.zip`, in that order |
| Download.OutputPathRoundTrip | megascans/megascans.go:276 | the asset identifier can be read back from its archive path |
| Download.OutputPathInjective | megascans/megascans.go:276 | two identifiers in one folder share an archive path exactly when they are equal; this is a fact about the uncleaned path, and with path cleaning it holds for identifiers without separators or dot segments, as asset UUIDs are |
| Ledger.GetBaseConfig | app.go:42-52 | the base configuration exists exactly when the folder prompt is answered; its folder is the answer and it has no downloads |
| Ledger.GetDownloadConfigFileData | app.go:54-101 | an existing ledger is loaded as stored, and loading fails exactly when it is unreadable; a missing ledger is created from the prompted folder with no downloads, and loading succeeds exactly when the prompt and the write both succeed; a file created but not written is left unreadable |
| Ledger.AddAssetToSuccessfulDownloads | app.go:103-123 | an error is reported exactly when the reload fails; a successful rewrite appends the asset after the old entries and keeps the folder; a failed rewrite is not reported |
| Ledger.GetDownloadedAssets | app.go:125-131 | a readable ledger yields its entries and no error; an unreadable one yields an empty list together with an error |
| Ledger.IsAlreadyDownloaded | app.go:125-147 | the answer is "downloaded" exactly when some reloaded entry has the asset's identifier; no error is ever reported, and an unreadable ledger counts as holding nothing |
| Reconcile.Pending | app.go:178-188 | the filter never yields more assets than the catalog holds |
| Reconcile.PendingMembership | app.go:178-188 | an asset is pending exactly when the catalog holds it and no ledger entry has its identifier |
| Reconcile.PendingAppend | app.go:178-188 | filtering keeps catalog order: the filter of a concatenation is the concatenation of the filters |
| Reconcile.FilterPending | app.go:178-188 | the filter loop never stops the program and yields the pending list of the reloaded ledger |
| Reconcile.UnreadableLedgerMakesAllPending | app.go:133-137 | with an unreadable ledger, every catalog asset is pending |
| Reconcile.DownloadFrom | app.go:190-204 | a loop that stops, by a fatal reply or a crash, stops at a pending position from its start on; what it records, writes and why it stops is stated by the DownloadFrom lemmas below |
| Reconcile.StopIsFirstUnsaved | app.go:190-204 | when every rewrite before the loop's stop position succeeds, the loop stops exactly at the first failed download |
| Reconcile.DownloadFromLedger | app.go:190-204 | when every rewrite before the first failed download succeeds, the ledger ends as the old entries followed by the pending assets before the first failed download |
| Reconcile.DownloadFromSavedPaths | app.go:190-204 | when every rewrite before the first failed download succeeds, the complete archives written are those of the pending assets before the first failed download, in order, and the only other file left is that failed download's incomplete archive, when its disk step failed after creating the file |
| Reconcile.PartialIsStopAsset | app.go:190-204 | whatever the rewrites do, the loop leaves an incomplete archive exactly when it stops on a download whose write failed or fell short, and that archive is the stopped asset's `folder/<id>.zip` |
| Reconcile.DownloadFromStatus | app.go:190-204 | when every rewrite before the first failed download succeeds, the loop completes exactly when no download fails; otherwise it stops at the first failed download and never because of the ledger |
| Reconcile.DownloadFromOnlyAppends | app.go:190-204 | whatever the rewrites do, a readable ledger keeps its folder and old entries, and each new entry is a pending asset whose archive this loop wrote and whose rewrite succeeded |
| Reconcile.UnreadableStaysUnreadable | app.go:199-203 | once the ledger is unreadable it stays unreadable for the rest of the loop, since every later record fails before writing |
| Reconcile.UnrecordedSingleAsset | app.go:118-122 | for a one-asset catalog, a download whose rewrite failed before touching the file leaves the ledger as it was, the loop completes, and the asset is still pending on the next run |
| Reconcile.UnrecordedDownloadStaysPending | app.go:118-122 | over a catalog with distinct identifiers, a pending asset whose rewrite fails is never recorded by the run, so if the ledger is still readable afterwards the asset is pending on the next run |
| Reconcile.Run | app.go:178-204 | a run that stops by a fatal reply or a crash stops at a position of its pending list |
| Reconcile.RunRecordsPrefix | app.go:178-204 | a run in which every rewrite before the first failed download succeeds records, and writes complete archives for, exactly the pending assets before the first failure, and leaves the failing asset's incomplete archive when its disk step failed after the create; it completes exactly when none fails and otherwise stops at that failure |
| Reconcile.PendingOfRecordedIsEmpty | app.go:178-188 | once the whole pending list is in the ledger, nothing is pending |
| Reconcile.PendingAfterPrefix | app.go:178-188 | when catalog identifiers are distinct, recording the first k pending assets leaves exactly the rest pending, in order |
| Reconcile.RunIsIdempotent | app.go:178-204 | after a completed run in which every rewrite succeeded, a second run over the same catalog has nothing pending, downloads nothing and leaves the ledger unchanged |
| Reconcile.RunResumesAtFailure | app.go:178-204 | after a run that stopped at pending position k, with distinct catalog identifiers and every rewrite before k successful, the next run's pending list is the old one from k on |
| Reconcile.PendingDistinct | app.go:178-188 | the filter of a catalog with distinct identifiers has distinct identifiers |
| Reconcile.RunKeepsLedgerDistinct | app.go:178-204 | a ledger with distinct identifiers keeps them through a run over a catalog with distinct identifiers when every rewrite before the first failed download succeeds: nothing is recorded twice |
| App.Sync | app.go:149-205 | archives, complete or incomplete, are written only once reconciliation is reached; that requires a 200 catalog with a non-empty list, and every pending asset comes from it; a crash follows only a non-200 catalog status and writes nothing; the old ledger entries stay a prefix |
| App.SyncKeepsLedgerUntilReconciled | app.go:149-176 | a run that exits before reconciliation leaves an existing ledger file untouched and writes no archive, complete or incomplete |
| App.SyncReconciles | app.go:149-205 | a reconciled run loaded its ledger and reconciled the fetched catalog against it |
| App.SecondSyncDownloadsNothing | app.go:149-205 | after a run that completed with every rewrite successful, the next run over the same catalog and ledger writes no archive, complete or incomplete, and leaves the ledger unchanged |
| App.SyncResumesAtFailure | app.go:149-205 | after a run that stopped at pending position k with every rewrite before k successful, the next reconciled run over the same catalog, with distinct catalog identifiers, has as its pending list the old one from k on |
| Scenario.ExampleRun | app.go:178-204 | with an empty ledger and catalog A1, A2, A3, where A2's payload is empty, the run stops at A2 with only A1 recorded and only `/tmp/out/A1.zip` written; A2 fails before its create, so no incomplete archive is left |
| Scenario.ExampleResume | app.go:178-188 | the next run over that catalog has A2 and A3 pending |

## Left out

- HTTP requests, URL building and headers are not modelled. Each remote step is one reply value: no response, or a status with a body that is readable and decodable or not. The payload request sends the token without the `Bearer ` prefix; that is not modelled.
- Standard-input prompts are a script of answers, and a missing answer is a read failure. Whitespace trimming is not modelled. Each prompt opens a fresh buffered reader that can drop piped input; that is not modelled either.
- JSON encoding and decoding are abstract successes or failures. Encoding the manifest and the configuration never fails in the model.
- `os.Executable` and `getConfigPath` are not modelled, because the ledger file is a value.
- `time.Sleep`, printing, `SayHello` and `TestEmail` have no effect on state and are left out.
- The per-asset replies are a function of the asset, so a catalog that lists one asset twice gives both download attempts the same replies.
- `filepath.Join` cleaning is not modelled. The archive path is `folder + "/" + id + ".zip"`.
- The `resp == nil` test in `DownloadAsset` is left out. It cannot hold after a successful request.
- `log.Fatal` is an end status of the run (`Exited`, `Fatal`, `AbortedAt`), not process termination.
- `ScriptEnded` and `Unfinished` are not program behaviour. They mark runs where the finite reply script ran out while the real service would still have replied.
- The ledger file disappearing after startup is not modelled. The filter loop reloads the ledger for every catalog asset, and the download loop reloads it before every record. Neither loop's file type has an `Absent` case, so the bootstrap prompt and re-creation that such a reload would trigger are not modelled either.
- A failed create during bootstrap leaves nothing on disk. A create followed by a failed write leaves an unreadable file. Other partial-write states are not distinguished.
- `main` reads the downloads folder once at startup. A later change to the folder in the ledger has no effect on the run, and the model uses the startup folder throughout.
- Auth.Authenticate: the unbounded recursion is bounded by the reply script. A script that runs out gives `ScriptEnded` rather than another request.

=== FILE: app.dfy ===
/** One run of the program: load (or create) the ledger, create the session,
    authenticate, fetch the catalog, filter it against the ledger and
    download what is missing. Everything the outside world answers is part of
    the `World` the run is given; a `log.Fatal` is an `Exited` status and a
    nil dereference a `Crashed` one. */
module App {
  import opened Wrappers
  import opened Prompts
  import opened Assets
  import opened Auth
  import opened Catalog
  import opened Ledger
  import opened Reconcile

  /** The answers of the outside world for one run: the ledger file at
      startup and what creating it does, the operator's prompt answers in
      the order they are asked, the account-verification replies, the
      catalog reply, and the replies for each asset's download and record. */
  datatype World = World(
    disk: DiskFile,
    bootstrap: BootstrapReply,
    answers: seq<Answer>,
    authReplies: seq<Response>,
    catalog: CatalogReply,
    assets: AcquiredAsset -> AssetScript)

  datatype Exit =
    | LedgerUnavailable(ledgerError: LedgerError)
    | UserPromptFailed
    | AuthenticationRefused(authError: AuthError)
    | CatalogUnavailable(catalogError: CatalogError)

  /** How the run ended. `Unfinished` means the reply script ran out during
      authentication. */
  datatype SyncStatus =
    | Exited(exit: Exit)
    | Crashed
    | Unfinished
    | Reconciled(pending: seq<AcquiredAsset>, loop: LoopStatus)

  /** The ledger file after the run, the complete archives it wrote, the
      incomplete archive a failed disk step left, and how it ended. */
  datatype SyncResult = SyncResult(disk: DiskFile, saved: seq<string>, partial: Option<string>, status: SyncStatus)

  /** One run. The filter reloads the ledger the run started from, which is
      the configuration just loaded. */
  function Sync(w: World): (r: SyncResult)
    ensures r.saved != [] || r.partial.Some? ==> r.status.Reconciled?
    ensures r.status.Reconciled? ==>
      && w.catalog.CatalogResponse? && w.catalog.status == 200 && w.catalog.body.AssetList?
      && |w.catalog.body.assets| > 0
      && forall a :: a in r.status.pending ==> a in w.catalog.body.assets
    ensures r.status.Crashed? ==> w.catalog.CatalogResponse? && w.catalog.status != 200 && r.saved == [] && r.partial == None
    ensures w.disk.Present? && w.disk.file.Stored? && r.disk.Present? && r.disk.file.Stored? ==>
      w.disk.file.config.successfulDownloads <= r.disk.file.config.successfulDownloads
  {
    var loaded := GetDownloadConfigFileData(w.disk, w.answers, w.bootstrap);
    match loaded.result
    case Failure(e) => SyncResult(loaded.disk, [], None, Exited(LedgerUnavailable(e)))
    case Success(config) =>
      var (created, answers) := NewUser(loaded.answers);
      match created
      case Failure(_) => SyncResult(loaded.disk, [], None, Exited(UserPromptFailed))
      case Success(user) =>
        var auth := Authenticate(user, w.authReplies, answers);
        match auth.outcome
        case ScriptEnded => SyncResult(loaded.disk, [], None, Unfinished)
        case AuthFailed(e) => SyncResult(loaded.disk, [], None, Exited(AuthenticationRefused(e)))
        case Authenticated =>
          var fetched := GetAcquiredAssets(auth.user, auth.responses, auth.answers, w.catalog);
          match fetched.result
          case AuthUnfinished => SyncResult(loaded.disk, [], None, Unfinished)
          case CatalogFailed(e) => SyncResult(loaded.disk, [], None, Exited(CatalogUnavailable(e)))
          case NilNoError => SyncResult(loaded.disk, [], None, Crashed)
          case Acquired(owned) =>
            var run := Run(owned, config, w.assets);
            DownloadFromOnlyAppends(run.pending, 0, config.downloadsFolder, config, w.assets);
            PendingMembership(owned, config.successfulDownloads);
            SyncResult(Present(run.loop.file), run.loop.saved, run.loop.partial, Reconciled(run.pending, run.loop.status))
  }

  /** A run over a ledger file that already exists leaves it untouched unless
      it reaches reconciliation. */
  lemma SyncKeepsLedgerUntilReconciled(w: World)
    requires w.disk.Present?
    ensures !Sync(w).status.Reconciled? ==> Sync(w).disk == w.disk && Sync(w).saved == [] && Sync(w).partial == None
  {
  }

  /** Idempotence across runs: after a run that downloaded and recorded
      everything pending, any later run over the same catalog downloads
      nothing and leaves the ledger as it is. */
  lemma SecondSyncDownloadsNothing(w: World, w2: World)
    requires Sync(w).status.Reconciled? && Sync(w).status.loop.Completed?
    requires RecordsSucceed(Sync(w).status.pending, 0, |Sync(w).status.pending|, w.assets)
    requires w2.disk == Sync(w).disk && w2.catalog == w.catalog
    ensures Sync(w2).saved == [] && Sync(w2).partial == None
    ensures Sync(w2).disk == Sync(w).disk
    ensures Sync(w2).status.Reconciled? ==> Sync(w2).status == Reconciled([], Completed)
  {
    SyncReconciles(w);
    var config := GetDownloadConfigFileData(w.disk, w.answers, w.bootstrap).result.value;
    RunIsIdempotent(w.catalog.body.assets, config, w.assets, w2.assets);
    if Sync(w2).status.Reconciled? {
      SyncReconciles(w2);
    } else {
      SyncKeepsLedgerUntilReconciled(w2);
    }
  }

  /** A run that reaches reconciliation started from a loaded ledger and
      reconciled the fetched catalog against it. */
  lemma SyncReconciles(w: World)
    requires Sync(w).status.Reconciled?
    ensures var loaded := GetDownloadConfigFileData(w.disk, w.answers, w.bootstrap).result;
      && loaded.Success?
      && var run := Run(w.catalog.body.assets, loaded.value, w.assets);
         Sync(w) == SyncResult(Present(run.loop.file), run.loop.saved, run.loop.partial, Reconciled(run.pending, run.loop.status))
  {
  }

  /** Resume across runs: after a run that stopped at pending position `k`
      with every rewrite before `k` successful, a later run over the same catalog
      (with distinct identifiers) that reaches reconciliation has exactly
      the stopped run's pending assets from `k` on, in the same order. */
  lemma SyncResumesAtFailure(w: World, w2: World)
    requires Sync(w).status.Reconciled? && !Sync(w).status.loop.Completed?
    requires DistinctIds(w.catalog.body.assets)
    requires RecordsSucceed(Sync(w).status.pending, 0, Sync(w).status.loop.index, w.assets)
    requires w2.disk == Sync(w).disk && w2.catalog == w.catalog
    ensures Sync(w2).status.Reconciled? ==>
      Sync(w2).status.pending == Sync(w).status.pending[Sync(w).status.loop.index..]
  {
    SyncReconciles(w);
    var config := GetDownloadConfigFileData(w.disk, w.answers, w.bootstrap).result.value;
    var owned := w.catalog.body.assets;
    RunResumesAtFailure(owned, config, w.assets, w2.assets);
    if Sync(w2).status.Reconciled? {
      SyncReconciles(w2);
    }
  }
}

=== FILE: assets.dfy ===
/** The acquired-asset record shared by the catalog, the ledger and the
    download step, and the identifier views used for deduplication. */
module Assets {

  /** One acquired entitlement. `assetId` is the dedup key; `resolution` is a
      licence tier, not a pixel size. */
  datatype AcquiredAsset = AcquiredAsset(assetId: string, resolution: int, exrAccess: string)

  /** The identifiers of `s`, in the same order. */
  function Ids(s: seq<AcquiredAsset>): (r: seq<string>)
  {
    seq(|s|, i requires 0 <= i < |s| => s[i].assetId)
  }

  /** No identifier occurs twice in `s`. */
  predicate DistinctIds(s: seq<AcquiredAsset>)
  {
    forall i, j :: 0 <= i < j < |s| ==> s[i].assetId != s[j].assetId
  }

  lemma IdsAppend(s: seq<AcquiredAsset>, t: seq<AcquiredAsset>)
    ensures Ids(s + t) == Ids(s) + Ids(t)
  {
    assert forall i :: 0 <= i < |s + t| ==> Ids(s + t)[i] == (Ids(s) + Ids(t))[i];
  }

  /** In a sequence without repeated identifiers, different assets have
      different identifiers. */
  lemma DistinctIdsDiffer(s: seq<AcquiredAsset>, x: AcquiredAsset, y: AcquiredAsset)
    requires DistinctIds(s) && x in s && y in s && x != y
    ensures x.assetId != y.assetId
  {
    var i :| 0 <= i < |s| && s[i] == x;
    var j :| 0 <= j < |s| && s[j] == y;
    assert i != j;
  }

  lemma IdsMember(s: seq<AcquiredAsset>, a: AcquiredAsset)
    requires a in s
    ensures a.assetId in Ids(s)
  {
    var i :| 0 <= i < |s| && s[i] == a;
    assert Ids(s)[i] == a.assetId;
  }
}

=== FILE: auth.dfy ===
/** The account session and its re-authentication state machine. A session is
    a bearer token, an account e-mail and whether the session has
    authenticated before in this run. The service's replies and the
    operator's prompt answers are scripts the caller supplies. */
module Auth {
  import opened Wrappers
  import opened Http
  import opened Prompts

  datatype User = User(token: string, email: string, previouslyAuthenticated: bool)

  /** One reply of the account-verification endpoint: either no response
      (the request could not be built or sent) or an HTTP status. */
  datatype Response = NoResponse | Status(code: int)

  datatype AuthError = RequestFailed | PromptFailed

  /** `ScriptEnded` means the reply script ran out before the exchange
      finished; the service itself never produces it. */
  datatype AuthOutcome = Authenticated | AuthFailed(error: AuthError) | ScriptEnded

  /** The session after an exchange, how it ended, and the unread rest of
      both scripts. */
  datatype AuthRun = AuthRun(user: User, outcome: AuthOutcome, responses: seq<Response>, answers: seq<Answer>)

  /** The session as first created: e-mail prompt first, then token prompt,
      not yet authenticated. A failed read ends creation at once. */
  function NewUser(answers: seq<Answer>): (r: (Result<User, AuthError>, seq<Answer>))
    ensures r.0.Success? <==> |answers| >= 2 && answers[0].Line? && answers[1].Line?
    ensures r.0.Success? ==>
      && r.0.value == User(answers[1].text, answers[0].text, false)
      && r.1 == answers[2..]
    ensures IsSuffix(r.1, answers)
  {
    match Read(answers)
    case (ReadFailure, rest) => (Failure(PromptFailed), rest)
    case (Line(email), rest) =>
      match Read(rest)
      case (ReadFailure, rest') => (Failure(PromptFailed), rest')
      case (Line(token), rest') => (Success(User(token, email, false)), rest')
  }

  /** The session after the prompts a rejection triggers, whether they all
      succeeded, and the unread answers. */
  datatype Reprompted = Reprompted(user: User, ok: bool, answers: seq<Answer>)

  /** The prompts after a 401/403. A session that authenticated before is
      asked for a new e-mail only; one that never did is asked for a new token
      and then a new e-mail. A field is replaced as soon as its prompt
      succeeds, so a token read before a failed e-mail prompt stays. */
  function Reprompt(u: User, answers: seq<Answer>): (r: Reprompted)
    ensures r.user.previouslyAuthenticated == u.previouslyAuthenticated
    ensures u.previouslyAuthenticated ==> r.user.token == u.token
    ensures u.previouslyAuthenticated && r.ok ==>
      && |answers| >= 1 && answers[0].Line?
      && r.user == u.(email := answers[0].text)
      && r.answers == answers[1..]
    ensures !u.previouslyAuthenticated && r.ok ==>
      && |answers| >= 2 && answers[0].Line? && answers[1].Line?
      && r.user == u.(token := answers[0].text, email := answers[1].text)
      && r.answers == answers[2..]
    ensures !r.ok ==> r.user.email == u.email
    ensures !u.previouslyAuthenticated && !r.ok ==>
      r.user.token == (if |answers| >= 1 && answers[0].Line? then answers[0].text else u.token)
    ensures IsSuffix(r.answers, answers)
  {
    if u.previouslyAuthenticated then
      match Read(answers)
      case (ReadFailure, rest) => Reprompted(u, false, rest)
      case (Line(email), rest) => Reprompted(u.(email := email), true, rest)
    else
      match Read(answers)
      case (ReadFailure, rest) => Reprompted(u, false, rest)
      case (Line(token), rest) =>
        var withToken := u.(token := token);
        match Read(rest)
        case (ReadFailure, rest') => Reprompted(withToken, false, rest')
        case (Line(email), rest') => Reprompted(withToken.(email := email), true, rest')
  }

  /** One call of the authentication check and the retries it makes. Any
      status other than 401/403 counts as success and marks the session
      authenticated. A 401/403 re-prompts and retries; the retry's error, if
      any, is returned as is and the flag is left as it was. */
  function Authenticate(u: User, responses: seq<Response>, answers: seq<Answer>): (r: AuthRun)
    ensures r.outcome.Authenticated? ==> r.user.previouslyAuthenticated
    ensures u.previouslyAuthenticated ==> r.user.previouslyAuthenticated
    ensures !r.outcome.Authenticated? ==> r.user.previouslyAuthenticated == u.previouslyAuthenticated
    ensures u.previouslyAuthenticated ==> r.user.token == u.token
    ensures r.outcome.ScriptEnded? ==> r.responses == []
    ensures IsSuffix(r.responses, responses) && IsSuffix(r.answers, answers)
    ensures |responses| > 0 ==> |r.responses| < |responses|
    decreases |responses|
  {
    if |responses| == 0 then
      AuthRun(u, ScriptEnded, [], answers)
    else
      match responses[0]
      case NoResponse => AuthRun(u, AuthFailed(RequestFailed), responses[1..], answers)
      case Status(code) =>
        if !IsRejection(code) then
          AuthRun(u.(previouslyAuthenticated := true), Authenticated, responses[1..], answers)
        else
          var p := Reprompt(u, answers);
          if !p.ok then
            AuthRun(p.user, AuthFailed(PromptFailed), responses[1..], p.answers)
          else
            var retry := Authenticate(p.user, responses[1..], p.answers);
            if retry.outcome.Authenticated? then
              retry.(user := retry.user.(previouslyAuthenticated := true))
            else
              retry
  }

  /** The retry loop written as a loop, as a long-lived client would run it:
      the same result as the recursive definition, without its call depth. */
  method AuthenticateLoop(u: User, responses: seq<Response>, answers: seq<Answer>) returns (r: AuthRun)
    ensures r == Authenticate(u, responses, answers)
  {
    var user, pending, unread := u, responses, answers;
    while true
      invariant Authenticate(user, pending, unread) == Authenticate(u, responses, answers)
      decreases |pending|
    {
      if |pending| == 0 {
        return AuthRun(user, ScriptEnded, [], unread);
      }
      match pending[0]
      case NoResponse =>
        return AuthRun(user, AuthFailed(RequestFailed), pending[1..], unread);
      case Status(code) =>
        if !IsRejection(code) {
          return AuthRun(user.(previouslyAuthenticated := true), Authenticated, pending[1..], unread);
        }
        var p := Reprompt(user, unread);
        if !p.ok {
          return AuthRun(p.user, AuthFailed(PromptFailed), pending[1..], p.answers);
        }
        RetryIsTail(user, pending, unread);
        user, pending, unread := p.user, pending[1..], p.answers;
    }
  }

  /** After a rejection whose prompts succeed, the whole exchange is the
      retry's exchange: re-setting the flag on success changes nothing. */
  lemma RetryIsTail(u: User, responses: seq<Response>, answers: seq<Answer>)
    requires |responses| > 0 && responses[0].Status? && IsRejection(responses[0].code)
    requires Reprompt(u, answers).ok
    ensures Authenticate(u, responses, answers)
         == Authenticate(Reprompt(u, answers).user, responses[1..], Reprompt(u, answers).answers)
  {
    var p := Reprompt(u, answers);
    var retry := Authenticate(p.user, responses[1..], p.answers);
    if retry.outcome.Authenticated? {
      assert retry.user.(previouslyAuthenticated := true) == retry.user;
    }
  }

  /** Any status other than 401/403, not only 200, is success. */
  lemma AnyOtherStatusAuthenticates(u: User, code: int, rest: seq<Response>, answers: seq<Answer>)
    requires !IsRejection(code)
    ensures Authenticate(u, [Status(code)] + rest, answers)
         == AuthRun(u.(previouslyAuthenticated := true), Authenticated, rest, answers)
  {
    assert ([Status(code)] + rest)[1..] == rest;
  }

  /** A first-ever rejection replaces the token, then the e-mail, from the
      prompts and retries with both. */
  lemma FirstRejectionReplacesBoth(u: User, code: int, rest: seq<Response>, token: string, email: string, more: seq<Answer>)
    requires !u.previouslyAuthenticated && IsRejection(code)
    ensures Authenticate(u, [Status(code)] + rest, [Line(token), Line(email)] + more)
         == Authenticate(User(token, email, false), rest, more)
  {
    var answers := [Line(token), Line(email)] + more;
    assert ([Status(code)] + rest)[1..] == rest && answers[2..] == more;
    FirstRejectionStep(u, [Status(code)] + rest, answers);
  }

  /** A rejection after an earlier success replaces only the e-mail; the
      token is kept. */
  lemma LaterRejectionReplacesEmail(u: User, code: int, rest: seq<Response>, email: string, more: seq<Answer>)
    requires u.previouslyAuthenticated && IsRejection(code)
    ensures Authenticate(u, [Status(code)] + rest, [Line(email)] + more)
         == Authenticate(u.(email := email), rest, more)
  {
    var responses := [Status(code)] + rest;
    var answers := [Line(email)] + more;
    assert responses[1..] == rest;
    assert answers[1..] == more;
    RetryIsTail(u, responses, answers);
  }

  /** A failed prompt after a rejection ends the exchange with that error at
      once: no further request is made and the flag is not set. */
  lemma PromptFailureEndsExchange(u: User, code: int, rest: seq<Response>, answers: seq<Answer>)
    requires IsRejection(code)
    requires !Reprompt(u, answers).ok
    ensures var r := Authenticate(u, [Status(code)] + rest, answers);
      && r.outcome == AuthFailed(PromptFailed)
      && r.responses == rest
      && r.user.previouslyAuthenticated == u.previouslyAuthenticated
  {
    assert ([Status(code)] + rest)[1..] == rest;
  }

  /** A rejection of a session that never authenticated, with both prompts
      answered, is the retry with the typed token and e-mail. */
  lemma FirstRejectionStep(u: User, responses: seq<Response>, answers: seq<Answer>)
    requires !u.previouslyAuthenticated
    requires |responses| > 0 && responses[0].Status? && IsRejection(responses[0].code)
    requires |answers| >= 2 && answers[0].Line? && answers[1].Line?
    ensures Authenticate(u, responses, answers)
         == Authenticate(User(answers[0].text, answers[1].text, false), responses[1..], answers[2..])
  {
    RetryIsTail(u, responses, answers);
  }

  /** Retrying never gives up: a session that has never authenticated, met
      by `n` rejections (401 or 403) and then an acceptance (any other
      status), ends authenticated, having
      read exactly two answers per rejection, with the last token and e-mail
      the operator typed (or its own when there was no rejection). */
  lemma {:induction false} RetryUntilAccepted(u: User, n: nat, responses: seq<Response>, answers: seq<Answer>)
    requires !u.previouslyAuthenticated
    requires |responses| > n
    requires forall i :: 0 <= i < n ==> responses[i].Status? && IsRejection(responses[i].code)
    requires responses[n].Status? && !IsRejection(responses[n].code)
    requires |answers| >= 2 * n
    requires forall i :: 0 <= i < 2 * n ==> answers[i].Line?
    ensures Authenticate(u, responses, answers).outcome == Authenticated
    ensures Authenticate(u, responses, answers).responses == responses[n + 1..]
    ensures Authenticate(u, responses, answers).answers == answers[2 * n..]
    ensures Authenticate(u, responses, answers).user == LastTyped(u, n, answers)
    decreases n
  {
    if n == 0 {
      AnyOtherStatusAuthenticates(u, responses[0].code, responses[1..], answers);
      assert [Status(responses[0].code)] + responses[1..] == responses;
    } else {
      FirstRejectionStep(u, responses, answers);
      var later, more := responses[1..], answers[2..];
      forall i | 0 <= i < n - 1 ensures later[i].Status? && IsRejection(later[i].code) {
        assert later[i] == responses[i + 1];
      }
      forall i | 0 <= i < 2 * (n - 1) ensures more[i].Line? {
        assert more[i] == answers[i + 2];
      }
      RetryUntilAccepted(User(answers[0].text, answers[1].text, false), n - 1, later, more);
      assert later[n..] == responses[n + 1..];
      assert more[2 * (n - 1)..] == answers[2 * n..];
      if n > 1 {
        assert more[2 * (n - 1) - 2] == answers[2 * n - 2];
        assert more[2 * (n - 1) - 1] == answers[2 * n - 1];
      }
    }
  }

  /** The authenticated session after `n` answered rejections: the last
      token and e-mail typed, or the session's own with no rejection. */
  function LastTyped(u: User, n: nat, answers: seq<Answer>): (r: User)
    requires |answers| >= 2 * n
    requires forall i :: 0 <= i < 2 * n ==> answers[i].Line?
  {
    if n == 0 then u.(previouslyAuthenticated := true)
    else User(answers[2 * n - 2].text, answers[2 * n - 1].text, true)
  }
}

=== FILE: catalog.dfy ===
/** Fetching the list of assets the account has acquired. The session is
    re-validated first, then one catalog request is made. */
module Catalog {
  import opened Http
  import opened Prompts
  import opened Assets
  import opened Auth

  /** The decoded body of a catalog reply, or a body that does not decode as
      an asset list. A `null` body decodes to the empty list. */
  datatype CatalogBody = AssetList(assets: seq<AcquiredAsset>) | Undecodable

  datatype CatalogReply = CatalogNoResponse | CatalogResponse(status: int, body: CatalogBody)

  datatype CatalogError = AuthenticationFailed(cause: AuthError) | TransportFailure | DecodeFailure | NoAcquiredAssets

  /** What the fetch hands back. `NilNoError` is a nil list together with a
      nil error, which the fetch returns for a status other than 200.
      `AuthUnfinished` is the reply script running out during authentication. */
  datatype Catalog = Acquired(assets: seq<AcquiredAsset>) | CatalogFailed(error: CatalogError) | NilNoError | AuthUnfinished

  datatype CatalogRun = CatalogRun(auth: AuthRun, result: Catalog)

  /** Authenticate, then classify the catalog reply. An empty list is an
      error, not an empty success; a non-empty list is returned unchanged. */
  function GetAcquiredAssets(u: User, responses: seq<Response>, answers: seq<Answer>, reply: CatalogReply): (r: CatalogRun)
    ensures r.auth == Authenticate(u, responses, answers)
    ensures r.result.Acquired? <==>
      && r.auth.outcome.Authenticated?
      && reply.CatalogResponse? && reply.status == StatusOK
      && reply.body.AssetList? && |reply.body.assets| > 0
    ensures r.result.Acquired? ==> r.result.assets == reply.body.assets
    ensures r.result.NilNoError? <==>
      r.auth.outcome.Authenticated? && reply.CatalogResponse? && reply.status != StatusOK
    ensures r.result == CatalogFailed(NoAcquiredAssets) <==>
      r.auth.outcome.Authenticated? && reply == CatalogResponse(StatusOK, AssetList([]))
    ensures r.auth.outcome.AuthFailed? ==> r.result == CatalogFailed(AuthenticationFailed(r.auth.outcome.error))
  {
    var auth := Authenticate(u, responses, answers);
    match auth.outcome
    case ScriptEnded => CatalogRun(auth, AuthUnfinished)
    case AuthFailed(e) => CatalogRun(auth, CatalogFailed(AuthenticationFailed(e)))
    case Authenticated =>
      match reply
      case CatalogNoResponse => CatalogRun(auth, CatalogFailed(TransportFailure))
      case CatalogResponse(status, body) =>
        if status != StatusOK then
          CatalogRun(auth, NilNoError)
        else
          match body
          case Undecodable => CatalogRun(auth, CatalogFailed(DecodeFailure))
          case AssetList(assets) =>
            if |assets| == 0 then CatalogRun(auth, CatalogFailed(NoAcquiredAssets))
            else CatalogRun(auth, Acquired(assets))
  }
}

=== FILE: download.dfy ===
/** Downloading one asset: post its manifest, fetch the payload under the
    transient identifier the service returns, and write it to
    `folder/assetId.zip`. Each step's reply is supplied by a script. */
module Download {
  import opened Wrappers
  import opened Http
  import opened Assets
  import opened Manifest

  newtype byte = x: int | 0 <= x < 256

  datatype ManifestBody = ManifestId(id: string) | ManifestUnreadable | ManifestUndecodable
  datatype ManifestReply = ManifestNoResponse | ManifestResponse(status: int, body: ManifestBody)

  datatype PayloadBody = PayloadBytes(data: seq<byte>) | PayloadUnreadable
  datatype PayloadReply = PayloadNoResponse | PayloadResponse(status: int, body: PayloadBody)

  /** What the file system does with the payload: the file cannot be
      created, the write reports an error, or the write reports no error and
      `bytesWritten` bytes. */
  datatype DiskReply = CreateFailed | WriteFailed | Wrote(bytesWritten: int)

  datatype DownloadScript = DownloadScript(manifest: ManifestReply, payload: PayloadReply, disk: DiskReply)

  datatype DownloadError =
    | TransportFailure
    | BodyReadFailure
    | DecodeFailure
    | PayloadStatus(status: int)
    | EmptyPayload
    | CreateFailure
    | WriteFailure
    | ShortWrite(written: int, expected: nat)

  /** The requests one download makes, in order. */
  datatype Request = PostManifest(manifest: DownloadManifest) | GetPayload(downloadId: string) | CreateFile(path: string)

  /** How a download ends. `NilResult` is a nil path with a nil error, which a
      manifest status other than 200, 401 and 403 produces. `Fatal` is the
      process exit on a 401/403 manifest reply. */
  datatype DownloadOutcome = Saved(path: string) | Failed(error: DownloadError) | NilResult | Fatal(status: int)

  datatype DownloadRun = DownloadRun(requests: seq<Request>, outcome: DownloadOutcome)

  /** The download created its archive and then failed to fill it: the
      write reported an error or fell short, and the incomplete file stays
      on disk. */
  predicate LeavesPartial(outcome: DownloadOutcome)
  {
    outcome.Failed? && (outcome.error.WriteFailure? || outcome.error.ShortWrite?)
  }

  /** Where an asset's archive is written. Path cleaning is not modelled. */
  function OutputPath(folder: string, assetId: string): (p: string)
    ensures |p| == |folder| + |assetId| + 5
    ensures p[..|folder|] == folder && p[|folder|] == '/'
    ensures p[|folder| + 1 .. |p| - 4] == assetId && p[|p| - 4..] == ".zip"
  {
    folder + "/" + assetId + ".zip"
  }

  /** The identifier an output path names, the inverse of `OutputPath`. */
  function AssetIdOfPath(folder: string, path: string): (id: string)
    requires |folder| + 5 <= |path|
  {
    path[|folder| + 1 .. |path| - 4]
  }

  lemma OutputPathRoundTrip(folder: string, assetId: string)
    ensures |folder| + 5 <= |OutputPath(folder, assetId)|
    ensures AssetIdOfPath(folder, OutputPath(folder, assetId)) == assetId
  {
    var p := OutputPath(folder, assetId);
    assert p[|folder| + 1 .. |p| - 4] == assetId;
  }

  /** Distinct identifiers in one folder never share an archive path. This is
      a fact about the uncleaned path; with path cleaning it holds for
      identifiers without separators or dot segments, as asset UUIDs are. */
  lemma OutputPathInjective(folder: string, a: string, b: string)
    ensures OutputPath(folder, a) == OutputPath(folder, b) <==> a == b
  {
    if OutputPath(folder, a) == OutputPath(folder, b) {
      OutputPathRoundTrip(folder, a);
      OutputPathRoundTrip(folder, b);
    }
  }

  /** The payload step: a status other than 200 and an empty 200 body are
      both errors; otherwise the body is returned unchanged. */
  function RequestDownload(reply: PayloadReply): (r: Result<seq<byte>, DownloadError>)
    ensures r.Success? <==>
      reply.PayloadResponse? && reply.status == StatusOK && reply.body.PayloadBytes? && |reply.body.data| > 0
    ensures r.Success? ==> r.value == reply.body.data
    ensures reply.PayloadResponse? && reply.status != StatusOK ==> r == Failure(PayloadStatus(reply.status))
    ensures reply == PayloadResponse(StatusOK, PayloadBytes([])) ==> r == Failure(EmptyPayload)
  {
    match reply
    case PayloadNoResponse => Failure(TransportFailure)
    case PayloadResponse(status, body) =>
      if status != StatusOK then Failure(PayloadStatus(status))
      else
        match body
        case PayloadUnreadable => Failure(BodyReadFailure)
        case PayloadBytes(data) =>
          if |data| == 0 then Failure(EmptyPayload) else Success(data)
  }

  /** The disk step succeeds only when the whole payload was written; a short
      write is an error even though the write itself reported none. */
  function SaveDownloadToDisk(data: seq<byte>, disk: DiskReply): (r: Outcome<DownloadError>)
    ensures r.Pass? <==> disk == Wrote(|data|)
    ensures disk.Wrote? && disk.bytesWritten != |data| ==> r == Fail(ShortWrite(disk.bytesWritten, |data|))
  {
    match disk
    case CreateFailed => Fail(CreateFailure)
    case WriteFailed => Fail(WriteFailure)
    case Wrote(n) => if n != |data| then Fail(ShortWrite(n, |data|)) else Pass
  }

  /** The three-step download of `asset` into `folder`. */
  function DownloadAsset(asset: AcquiredAsset, folder: string, script: DownloadScript): (r: DownloadRun)
    ensures |r.requests| >= 1 && r.requests[0] == PostManifest(NewDownloadManifest(asset))
    ensures r.outcome.Saved? <==>
      && script.manifest.ManifestResponse?
      && script.manifest.status == StatusOK
      && script.manifest.body.ManifestId?
      && RequestDownload(script.payload).Success?
      && SaveDownloadToDisk(RequestDownload(script.payload).value, script.disk).Pass?
    ensures r.outcome.Saved? ==>
      && r.outcome.path == OutputPath(folder, asset.assetId)
      && r.requests == [PostManifest(NewDownloadManifest(asset)),
                        GetPayload(script.manifest.body.id),
                        CreateFile(r.outcome.path)]
    ensures r.outcome.Fatal? <==> script.manifest.ManifestResponse? && IsRejection(script.manifest.status)
    ensures r.outcome.NilResult? <==>
      script.manifest.ManifestResponse? && !IsRejection(script.manifest.status) && script.manifest.status != StatusOK
    ensures r.outcome.Fatal? || r.outcome.NilResult? ==> |r.requests| == 1
  {
    var posted := [PostManifest(NewDownloadManifest(asset))];
    match script.manifest
    case ManifestNoResponse => DownloadRun(posted, Failed(TransportFailure))
    case ManifestResponse(status, body) =>
      if IsRejection(status) then DownloadRun(posted, Fatal(status))
      else if status != StatusOK then DownloadRun(posted, NilResult)
      else
        match body
        case ManifestUnreadable => DownloadRun(posted, Failed(BodyReadFailure))
        case ManifestUndecodable => DownloadRun(posted, Failed(DecodeFailure))
        case ManifestId(id) =>
          var fetched := posted + [GetPayload(id)];
          match RequestDownload(script.payload)
          case Failure(e) => DownloadRun(fetched, Failed(e))
          case Success(data) =>
            var path := OutputPath(folder, asset.assetId);
            var written := fetched + [CreateFile(path)];
            match SaveDownloadToDisk(data, script.disk)
            case Fail(e) => DownloadRun(written, Failed(e))
            case Pass => DownloadRun(written, Saved(path))
  }

  /** Which error a failed download reports: each step's own error, passed
      on unchanged, with the requests made up to the failing step. */
  lemma DownloadAssetFailures(asset: AcquiredAsset, folder: string, script: DownloadScript)
    ensures script.manifest.ManifestNoResponse? ==>
      DownloadAsset(asset, folder, script).outcome == Failed(TransportFailure)
    ensures script.manifest == ManifestResponse(StatusOK, ManifestUnreadable) ==>
      DownloadAsset(asset, folder, script).outcome == Failed(BodyReadFailure)
    ensures script.manifest == ManifestResponse(StatusOK, ManifestUndecodable) ==>
      DownloadAsset(asset, folder, script).outcome == Failed(DecodeFailure)
    ensures script.manifest.ManifestResponse? && script.manifest.status == StatusOK && script.manifest.body.ManifestId?
            && RequestDownload(script.payload).Failure? ==>
      && DownloadAsset(asset, folder, script).outcome == Failed(RequestDownload(script.payload).error)
      && DownloadAsset(asset, folder, script).requests
         == [PostManifest(NewDownloadManifest(asset)), GetPayload(script.manifest.body.id)]
    ensures script.manifest.ManifestResponse? && script.manifest.status == StatusOK && script.manifest.body.ManifestId?
            && RequestDownload(script.payload).Success?
            && SaveDownloadToDisk(RequestDownload(script.payload).value, script.disk).Fail? ==>
      && DownloadAsset(asset, folder, script).outcome
         == Failed(SaveDownloadToDisk(RequestDownload(script.payload).value, script.disk).error)
      && DownloadAsset(asset, folder, script).requests
         == [PostManifest(NewDownloadManifest(asset)), GetPayload(script.manifest.body.id),
             CreateFile(OutputPath(folder, asset.assetId))]
    ensures LeavesPartial(DownloadAsset(asset, folder, script).outcome) <==>
      && script.manifest.ManifestResponse? && script.manifest.status == StatusOK && script.manifest.body.ManifestId?
      && RequestDownload(script.payload).Success?
      && script.disk != CreateFailed
      && SaveDownloadToDisk(RequestDownload(script.payload).value, script.disk).Fail?
  {
  }
}

=== FILE: http.dfy ===
/** The HTTP status codes the marketplace client reacts to. */
module Http {

  const StatusOK := 200
  const StatusUnauthorized := 401
  const StatusForbidden := 403

  /** The service rejected the credential or the account identifier. */
  predicate IsRejection(status: int)
  {
    status == StatusUnauthorized || status == StatusForbidden
  }
}

=== FILE: ledger.dfy ===
/** The download ledger: a JSON file holding the downloads folder and the
    assets already downloaded. Every operation re-reads the file; the model
    takes the file's decoded content as a value, and the outcome of each
    write as a supplied reply. */
module Ledger {
  import opened Wrappers
  import opened Prompts
  import opened Assets

  datatype Config = Config(downloadsFolder: string, successfulDownloads: seq<AcquiredAsset>)

  /** The ledger file as a read sees it: a decoded configuration, or a file
      that cannot be read or does not decode. */
  datatype LedgerFile = Stored(config: Config) | Unreadable

  /** The ledger file at startup, when it may not exist yet. */
  datatype DiskFile = Absent | Present(file: LedgerFile)

  /** Creating the first ledger file: written, not created (nothing on
      disk), or created but not written (an empty file that does not decode). */
  datatype BootstrapReply = BootstrapWritten | BootstrapCreateFailed | BootstrapWriteFailed

  /** Rewriting the ledger file: written, failed before the file was touched,
      or failed after the file was truncated. */
  datatype WriteReply = WriteOk | WriteFailedUnchanged | WriteFailedCorrupted

  datatype LedgerError = FolderPromptFailed | BootstrapFailed | LoadFailed

  /** The configuration a first run starts from: the folder the operator
      typed and no downloads. */
  function GetBaseConfig(answer: Answer): (r: Result<Config, LedgerError>)
    ensures r.Success? <==> answer.Line?
    ensures r.Success? ==> r.value.downloadsFolder == answer.text && r.value.successfulDownloads == []
  {
    match answer
    case ReadFailure => Failure(FolderPromptFailed)
    case Line(folder) => Success(Config(folder, []))
  }

  datatype Loaded = Loaded(result: Result<Config, LedgerError>, disk: DiskFile, answers: seq<Answer>)

  /** Load the ledger, creating it first when it does not exist: the folder
      is prompted for, the base configuration written, and the file read back. */
  function GetDownloadConfigFileData(disk: DiskFile, answers: seq<Answer>, bootstrap: BootstrapReply): (r: Loaded)
    ensures r.result.Success? ==> r.disk == Present(Stored(r.result.value))
    ensures disk.Present? ==>
      && r.disk == disk && r.answers == answers
      && (r.result.Success? <==> disk.file.Stored?)
      && (disk.file.Stored? ==> r.result.value == disk.file.config)
    ensures disk.Absent? ==>
      && (r.result.Success? <==> |answers| > 0 && answers[0].Line? && bootstrap.BootstrapWritten?)
      && (r.result.Success? ==> r.result.value == Config(answers[0].text, []))
      && (bootstrap.BootstrapWriteFailed? && r.result.Failure? && |answers| > 0 && answers[0].Line? ==>
            r.disk == Present(Unreadable))
    ensures IsSuffix(r.answers, answers)
  {
    match disk
    case Present(Unreadable) => Loaded(Failure(LoadFailed), disk, answers)
    case Present(Stored(config)) => Loaded(Success(config), disk, answers)
    case Absent =>
      var (answer, rest) := Read(answers);
      match GetBaseConfig(answer)
      case Failure(e) => Loaded(Failure(e), disk, rest)
      case Success(base) =>
        match bootstrap
        case BootstrapCreateFailed => Loaded(Failure(BootstrapFailed), Absent, rest)
        case BootstrapWriteFailed => Loaded(Failure(BootstrapFailed), Present(Unreadable), rest)
        case BootstrapWritten => Loaded(Success(base), Present(Stored(base)), rest)
  }

  datatype Recorded = Recorded(file: LedgerFile, error: Option<LedgerError>)

  /** Record one downloaded asset: reload, append, rewrite. Only a failed
      reload is reported; a failed rewrite is swallowed. */
  function AddAssetToSuccessfulDownloads(file: LedgerFile, asset: AcquiredAsset, write: WriteReply): (r: Recorded)
    ensures r.error.Some? <==> file.Unreadable?
    ensures file.Stored? && write.WriteOk? ==>
      r.file == Stored(Config(file.config.downloadsFolder, file.config.successfulDownloads + [asset]))
    ensures write.WriteFailedUnchanged? || file.Unreadable? ==> r.file == file
    ensures file.Stored? && write.WriteFailedCorrupted? ==> r.file == Unreadable
  {
    match file
    case Unreadable => Recorded(file, Some(LoadFailed))
    case Stored(config) =>
      var downloads :=
        if |config.successfulDownloads| > 0 then config.successfulDownloads + [asset] else [asset];
      assert downloads == config.successfulDownloads + [asset];
      var updated := config.(successfulDownloads := downloads);
      match write
      case WriteOk => Recorded(Stored(updated), None)
      case WriteFailedUnchanged => Recorded(file, None)
      case WriteFailedCorrupted => Recorded(Unreadable, None)
  }

  /** The entries a reload yields and its error; a failed reload yields a
      nil (empty) list together with the error. */
  function GetDownloadedAssets(file: LedgerFile): (r: (seq<AcquiredAsset>, Option<LedgerError>))
    ensures r.1.Some? <==> file.Unreadable?
    ensures file.Stored? ==> r.0 == file.config.successfulDownloads
    ensures r.1.Some? ==> r.0 == []
  {
    match file
    case Stored(config) => (config.successfulDownloads, None)
    case Unreadable => ([], Some(LoadFailed))
  }

  /** The entries the dedup check sees. */
  function Entries(file: LedgerFile): (r: seq<AcquiredAsset>)
  {
    GetDownloadedAssets(file).0
  }

  /** The dedup check: a linear scan of the reloaded entries by identifier.
      The empty-list test comes before the error test, and a failed reload
      yields an empty list, so a reload error is never reported: the asset
      just counts as not downloaded. */
  method IsAlreadyDownloaded(asset: AcquiredAsset, file: LedgerFile) returns (downloaded: bool, err: Option<LedgerError>)
    ensures err.None?
    ensures downloaded <==> asset.assetId in Ids(Entries(file))
    ensures file.Unreadable? ==> !downloaded
  {
    var (downloadedAssets, loadError) := GetDownloadedAssets(file);
    if |downloadedAssets| < 1 {
      return false, None;
    }
    if loadError.Some? {
      return false, loadError;
    }
    var i := 0;
    while i < |downloadedAssets|
      invariant 0 <= i <= |downloadedAssets|
      invariant forall j :: 0 <= j < i ==> downloadedAssets[j].assetId != asset.assetId
    {
      if asset.assetId == downloadedAssets[i].assetId {
        assert Ids(downloadedAssets)[i] == asset.assetId;
        return true, None;
      }
      i := i + 1;
    }
    return false, None;
  }
}

=== FILE: manifest.dfy ===
/** The request body that asks the marketplace to prepare one asset for
    download, with the export preferences the client always sends. */
module Manifest {
  import opened Assets

  /** The only mesh format the client asks for. */
  const FbxMimeType := "application/x-fbx"

  datatype ExportConfig = ExportConfig(
    highpoly: bool,
    ztool: bool,
    lowerlodNormals: bool,
    albedoLods: bool,
    meshMimeType: string,
    brushes: bool)

  datatype DownloadManifest = DownloadManifest(asset: string, config: ExportConfig)

  /** A manifest with every field at its zero value, the starting point of
      `NewDownloadManifest`. */
  const ZeroManifest := DownloadManifest("", ExportConfig(false, false, false, false, "", false))

  /** The manifest for `asset`: its identifier plus the fixed export
      preferences. `lowerlodNormals` is never assigned and keeps its zero value. */
  function NewDownloadManifest(asset: AcquiredAsset): (m: DownloadManifest)
    ensures m.asset == asset.assetId
    ensures m.config.highpoly && m.config.ztool && m.config.albedoLods && m.config.brushes
    ensures m.config.meshMimeType == FbxMimeType
    ensures !m.config.lowerlodNormals
  {
    var payload := ZeroManifest.(asset := asset.assetId);
    var config := payload.config
      .(highpoly := true)
      .(ztool := true)
      .(albedoLods := true)
      .(meshMimeType := FbxMimeType)
      .(brushes := true);
    payload.(config := config)
  }

  /** Two assets get the same manifest exactly when they share an identifier:
      the licence fields never reach the request. */
  lemma ManifestDeterminedById(a: AcquiredAsset, b: AcquiredAsset)
    ensures NewDownloadManifest(a) == NewDownloadManifest(b) <==> a.assetId == b.assetId
  {
  }
}

=== FILE: prompts.dfy ===
/** Operator input. Each prompt reads one line of standard input and trims the
    white space around it; the model receives the trimmed lines as a script. */
module Prompts {

  /** One answer to a prompt: the trimmed line, or a failed read. */
  datatype Answer = Line(text: string) | ReadFailure

  /** The next answer and the rest of the script. Past the end of the script
      every read fails, as reading at end of input does. */
  function Read(answers: seq<Answer>): (r: (Answer, seq<Answer>))
    ensures |answers| > 0 ==> r.0 == answers[0] && r.1 == answers[1..]
    ensures |answers| == 0 ==> r.0 == ReadFailure && r.1 == []
  {
    if |answers| == 0 then (ReadFailure, []) else (answers[0], answers[1..])
  }

  /** `tail` is what is left of `s` after some prefix was consumed. */
  predicate IsSuffix<T(==)>(tail: seq<T>, s: seq<T>)
  {
    tail == s || (|s| > 0 && IsSuffix(tail, s[1..]))
  }
}

=== FILE: reconcile.dfy ===
/** Reconciliation: the catalog minus the ledger, in catalog order, then one
    download per pending asset, recording each success in the ledger and
    stopping at the first failure. */
module Reconcile {
  import opened Wrappers
  import opened Assets
  import opened Ledger
  import opened Download

  /** The catalog's assets whose identifier the ledger does not hold, in
      catalog order. */
  function Pending(owned: seq<AcquiredAsset>, ledger: seq<AcquiredAsset>): (r: seq<AcquiredAsset>)
    ensures |r| <= |owned|
  {
    if owned == [] then []
    else if owned[0].assetId in Ids(ledger) then Pending(owned[1..], ledger)
    else [owned[0]] + Pending(owned[1..], ledger)
  }

  /** Dedup correctness: an asset is pending exactly when the catalog holds
      it and the ledger holds no entry with its identifier. */
  lemma {:induction false} PendingMembership(owned: seq<AcquiredAsset>, ledger: seq<AcquiredAsset>)
    ensures forall a :: a in Pending(owned, ledger) <==> a in owned && a.assetId !in Ids(ledger)
  {
    if owned != [] {
      PendingMembership(owned[1..], ledger);
      assert owned == [owned[0]] + owned[1..];
    }
  }

  /** Filtering keeps catalog order: it distributes over concatenation. */
  lemma {:induction false} PendingAppend(x: seq<AcquiredAsset>, y: seq<AcquiredAsset>, ledger: seq<AcquiredAsset>)
    ensures Pending(x + y, ledger) == Pending(x, ledger) + Pending(y, ledger)
  {
    if x != [] {
      assert (x + y)[0] == x[0];
      assert (x + y)[1..] == x[1..] + y;
      PendingAppend(x[1..], y, ledger);
    } else {
      assert x + y == y;
    }
  }

  /** The filter loop of the program: one dedup check per catalog asset. It
      would stop the program on a dedup error, but the check never reports
      one, so the loop always yields the pending list of the reloaded entries. */
  method FilterPending(owned: seq<AcquiredAsset>, file: LedgerFile) returns (pending: seq<AcquiredAsset>, fatal: bool)
    ensures !fatal
    ensures pending == Pending(owned, Entries(file))
  {
    pending := [];
    var i := 0;
    while i < |owned|
      invariant 0 <= i <= |owned|
      invariant pending == Pending(owned[..i], Entries(file))
    {
      var asset := owned[i];
      assert owned[..i + 1] == owned[..i] + [asset];
      PendingAppend(owned[..i], [asset], Entries(file));
      var downloaded, err := IsAlreadyDownloaded(asset, file);
      if err.Some? {
        return pending, true;
      }
      if !downloaded {
        pending := pending + [asset];
      }
      i := i + 1;
    }
    assert owned[..i] == owned;
    return pending, false;
  }

  /** A ledger that cannot be read makes every catalog asset pending. */
  lemma UnreadableLedgerMakesAllPending(owned: seq<AcquiredAsset>)
    ensures Pending(owned, Entries(Unreadable)) == owned
  {
    if owned != [] {
      UnreadableLedgerMakesAllPending(owned[1..]);
    }
  }

  /** The replies for one asset: its download steps and the ledger rewrite. */
  datatype AssetScript = AssetScript(download: DownloadScript, record: WriteReply)

  datatype AbortReason = DownloadFailed(error: DownloadError) | Unauthorized(status: int) | RecordFailed(cause: LedgerError)

  /** How the download loop ended. `CrashedAt` is the nil dereference of a
      download that returned neither a path nor an error. */
  datatype LoopStatus = Completed | AbortedAt(index: nat, reason: AbortReason) | CrashedAt(index: nat)

  /** What the loop leaves behind: the ledger file, the complete archives in
      the order written, the incomplete archive of a download whose disk step
      failed after creating its file, and how the loop ended. */
  datatype LoopResult = LoopResult(file: LedgerFile, saved: seq<string>, partial: Option<string>, status: LoopStatus)

  /** The download loop from position `i` of `pending` on. */
  function DownloadFrom(pending: seq<AcquiredAsset>, i: nat, folder: string, file: LedgerFile,
                        replies: AcquiredAsset -> AssetScript): (r: LoopResult)
    requires i <= |pending|
    ensures r.status.AbortedAt? ==> i <= r.status.index < |pending|
    ensures r.status.CrashedAt? ==> i <= r.status.index < |pending|
    decreases |pending| - i
  {
    if i == |pending| then
      LoopResult(file, [], None, Completed)
    else
      var asset := pending[i];
      match DownloadAsset(asset, folder, replies(asset).download).outcome
      case Failed(e) =>
        var partial := if LeavesPartial(Failed(e)) then Some(OutputPath(folder, asset.assetId)) else None;
        LoopResult(file, [], partial, AbortedAt(i, DownloadFailed(e)))
      case Fatal(status) => LoopResult(file, [], None, AbortedAt(i, Unauthorized(status)))
      case NilResult => LoopResult(file, [], None, CrashedAt(i))
      case Saved(path) =>
        var recorded := AddAssetToSuccessfulDownloads(file, asset, replies(asset).record);
        if recorded.error.Some? then
          LoopResult(recorded.file, [path], None, AbortedAt(i, RecordFailed(recorded.error.value)))
        else
          var rest := DownloadFrom(pending, i + 1, folder, recorded.file, replies);
          LoopResult(rest.file, [path] + rest.saved, rest.partial, rest.status)
  }

  /** The asset's download ends with its archive written. */
  predicate Downloads(asset: AcquiredAsset, folder: string, replies: AcquiredAsset -> AssetScript)
  {
    DownloadAsset(asset, folder, replies(asset).download).outcome.Saved?
  }

  /** The position of the first asset from `i` on whose download does not
      succeed, or `|pending|` when they all do. */
  function FirstUnsaved(pending: seq<AcquiredAsset>, i: nat, folder: string,
                        replies: AcquiredAsset -> AssetScript): (k: nat)
    requires i <= |pending|
    ensures i <= k <= |pending|
    ensures k < |pending| ==> !Downloads(pending[k], folder, replies)
    decreases |pending| - i
  {
    if i == |pending| || !Downloads(pending[i], folder, replies) then i
    else FirstUnsaved(pending, i + 1, folder, replies)
  }

  /** Every download before the first unsaved one succeeds. */
  lemma {:induction false} BeforeFirstUnsaved(pending: seq<AcquiredAsset>, i: nat, folder: string,
                                              replies: AcquiredAsset -> AssetScript, j: nat)
    requires i <= |pending| && i <= j < FirstUnsaved(pending, i, folder, replies)
    ensures Downloads(pending[j], folder, replies)
    decreases |pending| - i
  {
    if j > i {
      BeforeFirstUnsaved(pending, i + 1, folder, replies, j);
    }
  }

  /** The archive paths of `assets`, in order. */
  function OutputPaths(folder: string, assets: seq<AcquiredAsset>): (r: seq<string>)
  {
    if assets == [] then [] else [OutputPath(folder, assets[0].assetId)] + OutputPaths(folder, assets[1..])
  }

  /** The incomplete archive the download at pending position `k` leaves, if
      there is such a position and its disk step failed after the create. */
  function PartialAt(pending: seq<AcquiredAsset>, k: nat, folder: string,
                     replies: AcquiredAsset -> AssetScript): (r: Option<string>)
  {
    if k < |pending| && LeavesPartial(DownloadAsset(pending[k], folder, replies(pending[k]).download).outcome)
    then Some(OutputPath(folder, pending[k].assetId))
    else None
  }

  /** The ledger rewrites for the pending positions `i` up to `k` succeed. */
  predicate RecordsSucceed(pending: seq<AcquiredAsset>, i: nat, k: nat, replies: AcquiredAsset -> AssetScript)
  {
    forall j :: i <= j < k && j < |pending| ==> replies(pending[j]).record == WriteOk
  }

  /** One successful download followed by a successful reload: the loop
      writes that archive and carries on with the next asset. */
  lemma DownloadFromSaved(pending: seq<AcquiredAsset>, i: nat, folder: string, file: LedgerFile,
                          replies: AcquiredAsset -> AssetScript)
    requires i < |pending| && Downloads(pending[i], folder, replies)
    requires AddAssetToSuccessfulDownloads(file, pending[i], replies(pending[i]).record).error.None?
    ensures var recorded := AddAssetToSuccessfulDownloads(file, pending[i], replies(pending[i]).record);
            var rest := DownloadFrom(pending, i + 1, folder, recorded.file, replies);
      DownloadFrom(pending, i, folder, file, replies)
        == LoopResult(rest.file, [OutputPath(folder, pending[i].assetId)] + rest.saved, rest.partial, rest.status)
  {
    var d := DownloadAsset(pending[i], folder, replies(pending[i]).download);
    assert d.outcome == Saved(OutputPath(folder, pending[i].assetId));
  }

  /** One successful download recorded in a readable ledger: the asset is
      appended to the ledger the rest of the loop starts from. */
  lemma RecordedStep(pending: seq<AcquiredAsset>, i: nat, folder: string, config: Config,
                     replies: AcquiredAsset -> AssetScript)
    requires i < |pending| && Downloads(pending[i], folder, replies)
    requires replies(pending[i]).record == WriteOk
    ensures var next := Config(config.downloadsFolder, config.successfulDownloads + [pending[i]]);
            var rest := DownloadFrom(pending, i + 1, folder, Stored(next), replies);
      DownloadFrom(pending, i, folder, Stored(config), replies)
        == LoopResult(rest.file, [OutputPath(folder, pending[i].assetId)] + rest.saved, rest.partial, rest.status)
  {
    DownloadFromSaved(pending, i, folder, Stored(config), replies);
  }

  /** A failed download stops the loop at that asset, with the ledger as it
      was and no archive written. */
  lemma DownloadFromStops(pending: seq<AcquiredAsset>, i: nat, folder: string, file: LedgerFile,
                          replies: AcquiredAsset -> AssetScript)
    requires i < |pending| && !Downloads(pending[i], folder, replies)
    ensures var r := DownloadFrom(pending, i, folder, file, replies);
      && r.file == file && r.saved == [] && r.partial == PartialAt(pending, i, folder, replies)
      && (r.status.AbortedAt? || r.status.CrashedAt?) && r.status.index == i
      && !(r.status.AbortedAt? && r.status.reason.RecordFailed?)
  {
  }

  /** A non-empty slice is its first element followed by the rest. */
  lemma SliceFront<T>(s: seq<T>, i: nat, k: nat)
    requires i < k <= |s|
    ensures s[i..k] == [s[i]] + s[i + 1..k]
  {
  }

  /** When every ledger rewrite succeeds, the loop records exactly the assets
      before the first failed download, in order, after the old entries. */
  lemma {:induction false} DownloadFromLedger(pending: seq<AcquiredAsset>, i: nat, folder: string,
                                              config: Config, replies: AcquiredAsset -> AssetScript)
    requires i <= |pending|
    requires RecordsSucceed(pending, i, FirstUnsaved(pending, i, folder, replies), replies)
    ensures DownloadFrom(pending, i, folder, Stored(config), replies).file
         == Stored(Config(config.downloadsFolder,
                          config.successfulDownloads + pending[i..FirstUnsaved(pending, i, folder, replies)]))
    decreases |pending| - i
  {
    var k := FirstUnsaved(pending, i, folder, replies);
    if i == |pending| || !Downloads(pending[i], folder, replies) {
      if i < |pending| {
        DownloadFromStops(pending, i, folder, Stored(config), replies);
      }
      assert config.successfulDownloads + pending[i..k] == config.successfulDownloads;
    } else {
      var asset := pending[i];
      var next := Config(config.downloadsFolder, config.successfulDownloads + [asset]);
      assert k == FirstUnsaved(pending, i + 1, folder, replies);
      assert replies(asset).record == WriteOk;
      RecordedStep(pending, i, folder, config, replies);
      DownloadFromLedger(pending, i + 1, folder, next, replies);
      SliceFront(pending, i, k);
      assert next.successfulDownloads + pending[i + 1..k] == config.successfulDownloads + pending[i..k];
    }
  }

  /** When every ledger rewrite succeeds, the loop writes the complete
      archives of the assets before the first failed download, in order, and
      no others; the only other file it leaves is the incomplete archive of
      that failed download, when its disk step failed after the create. */
  lemma {:induction false} DownloadFromSavedPaths(pending: seq<AcquiredAsset>, i: nat, folder: string,
                                                  file: LedgerFile, replies: AcquiredAsset -> AssetScript)
    requires i <= |pending| && file.Stored?
    requires RecordsSucceed(pending, i, FirstUnsaved(pending, i, folder, replies), replies)
    ensures DownloadFrom(pending, i, folder, file, replies).saved
         == OutputPaths(folder, pending[i..FirstUnsaved(pending, i, folder, replies)])
    ensures DownloadFrom(pending, i, folder, file, replies).partial
         == PartialAt(pending, FirstUnsaved(pending, i, folder, replies), folder, replies)
    decreases |pending| - i
  {
    var k := FirstUnsaved(pending, i, folder, replies);
    if i == |pending| || !Downloads(pending[i], folder, replies) {
      if i < |pending| {
        DownloadFromStops(pending, i, folder, file, replies);
      }
    } else {
      var asset := pending[i];
      assert replies(asset).record == WriteOk;
      DownloadFromSaved(pending, i, folder, file, replies);
      DownloadFromSavedPaths(pending, i + 1, folder,
        AddAssetToSuccessfulDownloads(file, asset, WriteOk).file, replies);
      SliceFront(pending, i, k);
    }
  }

  /** When every ledger rewrite succeeds, the loop completes exactly when no
      download fails, and otherwise stops at the first failing asset, never
      for a record error. */
  lemma {:induction false} DownloadFromStatus(pending: seq<AcquiredAsset>, i: nat, folder: string,
                                              file: LedgerFile, replies: AcquiredAsset -> AssetScript)
    requires i <= |pending| && file.Stored?
    requires RecordsSucceed(pending, i, FirstUnsaved(pending, i, folder, replies), replies)
    ensures var k := FirstUnsaved(pending, i, folder, replies);
            var status := DownloadFrom(pending, i, folder, file, replies).status;
      && (status.Completed? <==> k == |pending|)
      && (k < |pending| ==> (status.AbortedAt? || status.CrashedAt?) && status.index == k)
      && !(status.AbortedAt? && status.reason.RecordFailed?)
    decreases |pending| - i
  {
    if i < |pending| && !Downloads(pending[i], folder, replies) {
      DownloadFromStops(pending, i, folder, file, replies);
    } else if i < |pending| {
      var asset := pending[i];
      assert replies(asset).record == WriteOk;
      DownloadFromSaved(pending, i, folder, file, replies);
      DownloadFromStatus(pending, i + 1, folder,
        AddAssetToSuccessfulDownloads(file, asset, WriteOk).file, replies);
    }
  }

  /** When the rewrites before the loop's stop position all succeed, the
      loop stops exactly at the first failed download, never at a rewrite. */
  lemma {:induction false} StopIsFirstUnsaved(pending: seq<AcquiredAsset>, i: nat, folder: string,
                                              config: Config, replies: AcquiredAsset -> AssetScript)
    requires i <= |pending|
    requires !DownloadFrom(pending, i, folder, Stored(config), replies).status.Completed?
    requires RecordsSucceed(pending, i, DownloadFrom(pending, i, folder, Stored(config), replies).status.index, replies)
    ensures DownloadFrom(pending, i, folder, Stored(config), replies).status.index == FirstUnsaved(pending, i, folder, replies)
    decreases |pending| - i
  {
    if i < |pending| && !Downloads(pending[i], folder, replies) {
      DownloadFromStops(pending, i, folder, Stored(config), replies);
    } else if i < |pending| {
      var asset := pending[i];
      var status := DownloadFrom(pending, i, folder, Stored(config), replies).status;
      DownloadFromSaved(pending, i, folder, Stored(config), replies);
      assert status.index > i;
      assert replies(asset).record == WriteOk;
      var next := Config(config.downloadsFolder, config.successfulDownloads + [asset]);
      RecordedStep(pending, i, folder, config, replies);
      StopIsFirstUnsaved(pending, i + 1, folder, next, replies);
    }
  }

  /** Whatever the rewrites do, the loop leaves at most one incomplete
      archive: that of the asset it stopped at, when that asset's disk step
      failed after creating the file. */
  lemma {:induction false} PartialIsStopAsset(pending: seq<AcquiredAsset>, i: nat, folder: string, file: LedgerFile,
                                              replies: AcquiredAsset -> AssetScript)
    requires i <= |pending|
    ensures var r := DownloadFrom(pending, i, folder, file, replies);
      && (r.partial.Some? <==> r.status.AbortedAt? && r.status.reason.DownloadFailed?
                               && LeavesPartial(Failed(r.status.reason.error)))
      && (r.partial.Some? ==> r.partial.value == OutputPath(folder, pending[r.status.index].assetId))
    decreases |pending| - i
  {
    if i < |pending| && Downloads(pending[i], folder, replies) {
      var recorded := AddAssetToSuccessfulDownloads(file, pending[i], replies(pending[i]).record);
      if recorded.error.None? {
        DownloadFromSaved(pending, i, folder, file, replies);
        PartialIsStopAsset(pending, i + 1, folder, recorded.file, replies);
      }
    }
  }

  /** Once the ledger file cannot be read, the next record fails and the
      loop stops with the file as it is. */
  lemma UnreadableStaysUnreadable(pending: seq<AcquiredAsset>, i: nat, folder: string,
                                  replies: AcquiredAsset -> AssetScript)
    requires i <= |pending|
    ensures DownloadFrom(pending, i, folder, Unreadable, replies).file == Unreadable
  {
  }

  /** Every entry of `entries` from position `n` on is an asset of
      `pending[i..]` whose ledger rewrite succeeded and whose archive path is
      among `saved`. */
  predicate NewEntriesSaved(entries: seq<AcquiredAsset>, n: nat, pending: seq<AcquiredAsset>, i: nat,
                            folder: string, saved: seq<string>, replies: AcquiredAsset -> AssetScript)
    requires n <= |entries| && i <= |pending|
  {
    forall e :: e in entries[n..] ==>
      e in pending[i..] && replies(e).record == WriteOk && OutputPath(folder, e.assetId) in saved
  }

  /** Widening to one more pending asset and one more written archive keeps
      the new entries accounted for. */
  lemma NewEntriesWiden(entries: seq<AcquiredAsset>, n: nat, pending: seq<AcquiredAsset>, i: nat,
                        folder: string, saved: seq<string>, path: string, replies: AcquiredAsset -> AssetScript)
    requires n <= |entries| && i < |pending|
    requires NewEntriesSaved(entries, n, pending, i + 1, folder, saved, replies)
    ensures NewEntriesSaved(entries, n, pending, i, folder, [path] + saved, replies)
  {
    assert pending[i..] == [pending[i]] + pending[i + 1..];
  }

  /** The entry a successful record appends is the asset whose archive was
      just written. */
  lemma NewEntriesAfterRecord(before: seq<AcquiredAsset>, entries: seq<AcquiredAsset>, pending: seq<AcquiredAsset>,
                              i: nat, folder: string, saved: seq<string>, replies: AcquiredAsset -> AssetScript)
    requires i < |pending| && before + [pending[i]] <= entries
    requires replies(pending[i]).record == WriteOk
    requires NewEntriesSaved(entries, |before| + 1, pending, i + 1, folder, saved, replies)
    ensures before <= entries
    ensures NewEntriesSaved(entries, |before|, pending, i, folder, [OutputPath(folder, pending[i].assetId)] + saved, replies)
  {
    var a := pending[i];
    assert pending[i..] == [a] + pending[i + 1..];
    forall e | e in entries[|before|..]
      ensures e in pending[i..] && replies(e).record == WriteOk
           && OutputPath(folder, e.assetId) in [OutputPath(folder, a.assetId)] + saved
    {
      var j :| |before| <= j < |entries| && entries[j] == e;
      if j == |before| {
        assert entries[j] == (before + [a])[j] == a;
      } else {
        assert e in entries[|before| + 1..];
      }
    }
  }

  /** Whatever the ledger rewrites do, the ledger only grows at its end, keeps
      its folder, and every entry it gains is a pending asset whose archive
      was written and whose rewrite succeeded in this loop. */
  lemma {:induction false} DownloadFromOnlyAppends(pending: seq<AcquiredAsset>, i: nat, folder: string,
                                                   config: Config, replies: AcquiredAsset -> AssetScript)
    requires i <= |pending|
    ensures var r := DownloadFrom(pending, i, folder, Stored(config), replies);
      r.file.Stored? ==>
        && r.file.config.downloadsFolder == config.downloadsFolder
        && config.successfulDownloads <= r.file.config.successfulDownloads
        && NewEntriesSaved(r.file.config.successfulDownloads, |config.successfulDownloads|, pending, i, folder, r.saved, replies)
    decreases |pending| - i
  {
    var r := DownloadFrom(pending, i, folder, Stored(config), replies);
    var before := config.successfulDownloads;
    if i == |pending| {
    } else if !Downloads(pending[i], folder, replies) {
      DownloadFromStops(pending, i, folder, Stored(config), replies);
    } else {
      var a := pending[i];
      var path := OutputPath(folder, a.assetId);
      var recorded := AddAssetToSuccessfulDownloads(Stored(config), a, replies(a).record);
      DownloadFromSaved(pending, i, folder, Stored(config), replies);
      var rest := DownloadFrom(pending, i + 1, folder, recorded.file, replies);
      assert r.file == rest.file && r.saved == [path] + rest.saved;
      match replies(a).record
      case WriteFailedCorrupted =>
        UnreadableStaysUnreadable(pending, i + 1, folder, replies);
      case WriteFailedUnchanged =>
        DownloadFromOnlyAppends(pending, i + 1, folder, config, replies);
        if r.file.Stored? {
          NewEntriesWiden(r.file.config.successfulDownloads, |before|, pending, i, folder, rest.saved, path, replies);
        }
      case WriteOk =>
        var next := Config(config.downloadsFolder, before + [a]);
        DownloadFromOnlyAppends(pending, i + 1, folder, next, replies);
        if r.file.Stored? {
          NewEntriesAfterRecord(before, r.file.config.successfulDownloads, pending, i, folder, rest.saved, replies);
        }
    }
  }

  /** A one-asset catalog whose download succeeds but whose rewrite fails:
      the failure is swallowed, the loop completes with the archive written
      and the ledger as it was, and the next run downloads the asset again. */
  lemma UnrecordedSingleAsset(a: AcquiredAsset, config: Config, replies: AcquiredAsset -> AssetScript,
                              later: AcquiredAsset -> AssetScript)
    requires a.assetId !in Ids(config.successfulDownloads)
    requires Downloads(a, config.downloadsFolder, replies)
    requires replies(a).record == WriteFailedUnchanged
    ensures var r := Run([a], config, replies);
      && r.loop == LoopResult(Stored(config), [OutputPath(config.downloadsFolder, a.assetId)], None, Completed)
      && Run([a], config, later).pending == [a]
  {
    assert Pending([a], config.successfulDownloads) == [a];
    DownloadFromSaved([a], 0, config.downloadsFolder, Stored(config), replies);
  }

  datatype RunResult = RunResult(pending: seq<AcquiredAsset>, loop: LoopResult)

  /** Reconciliation of the catalog `owned` against a loaded ledger: filter,
      then download into the ledger's folder. */
  function Run(owned: seq<AcquiredAsset>, config: Config, replies: AcquiredAsset -> AssetScript): (r: RunResult)
    ensures r.loop.status.AbortedAt? ==> r.loop.status.index < |r.pending|
    ensures r.loop.status.CrashedAt? ==> r.loop.status.index < |r.pending|
  {
    var pending := Pending(owned, config.successfulDownloads);
    RunResult(pending, DownloadFrom(pending, 0, config.downloadsFolder, Stored(config), replies))
  }

  /** Every ledger rewrite a run makes before its first failed download
      succeeds. Rewrites after that position are never made. */
  predicate RecordsSucceedUntilFailure(owned: seq<AcquiredAsset>, config: Config, replies: AcquiredAsset -> AssetScript)
  {
    var pending := Pending(owned, config.successfulDownloads);
    RecordsSucceed(pending, 0, FirstUnsaved(pending, 0, config.downloadsFolder, replies), replies)
  }

  /** The ledger after a run in which every rewrite made succeeded: the old
      entries followed by the pending assets before the first failure. */
  lemma RunRecordsPrefix(owned: seq<AcquiredAsset>, config: Config, replies: AcquiredAsset -> AssetScript)
    requires RecordsSucceedUntilFailure(owned, config, replies)
    ensures var r := Run(owned, config, replies);
            var k := FirstUnsaved(r.pending, 0, config.downloadsFolder, replies);
      && r.loop.file == Stored(Config(config.downloadsFolder, config.successfulDownloads + r.pending[..k]))
      && r.loop.saved == OutputPaths(config.downloadsFolder, r.pending[..k])
      && r.loop.partial == PartialAt(r.pending, k, config.downloadsFolder, replies)
      && (r.loop.status.Completed? <==> k == |r.pending|)
      && (k < |r.pending| ==> r.loop.status.index == k)
  {
    var pending := Pending(owned, config.successfulDownloads);
    DownloadFromLedger(pending, 0, config.downloadsFolder, config, replies);
    DownloadFromSavedPaths(pending, 0, config.downloadsFolder, Stored(config), replies);
    DownloadFromStatus(pending, 0, config.downloadsFolder, Stored(config), replies);
    assert pending[0..] == pending;
  }

  /** Membership of an asset's identifier is all the filter looks at. */
  lemma {:induction false} PendingSameMembership(owned: seq<AcquiredAsset>, l1: seq<AcquiredAsset>, l2: seq<AcquiredAsset>)
    requires forall a :: a in owned ==> (a.assetId in Ids(l1) <==> a.assetId in Ids(l2))
    ensures Pending(owned, l1) == Pending(owned, l2)
  {
    if owned != [] {
      assert owned[0] in owned;
      assert forall a :: a in owned[1..] ==> a in owned;
      PendingSameMembership(owned[1..], l1, l2);
    }
  }

  /** Idempotence of the filter: once the whole pending list is in the
      ledger, nothing is pending. */
  lemma {:induction false} PendingOfRecordedIsEmpty(owned: seq<AcquiredAsset>, ledger: seq<AcquiredAsset>)
    ensures Pending(owned, ledger + Pending(owned, ledger)) == []
  {
    var p := Pending(owned, ledger);
    var r := Pending(owned, ledger + p);
    IdsAppend(ledger, p);
    PendingMembership(owned, ledger);
    PendingMembership(owned, ledger + p);
    if |r| > 0 {
      var a := r[0];
      assert a in r;
      assert a in owned && a.assetId !in Ids(ledger + p);
      if a.assetId !in Ids(ledger) {
        assert a in p;
        IdsMember(p, a);
      }
      assert false;
    }
  }

  /** Dropping the first asset of a catalog without repeated identifiers
      leaves one without them, none of which shares the first's identifier. */
  lemma DistinctTail(owned: seq<AcquiredAsset>)
    requires DistinctIds(owned) && owned != []
    ensures DistinctIds(owned[1..])
    ensures forall b :: b in owned[1..] ==> b.assetId != owned[0].assetId
  {
    var rest := owned[1..];
    forall i, j | 0 <= i < j < |rest| ensures rest[i].assetId != rest[j].assetId {
      assert rest[i] == owned[i + 1] && rest[j] == owned[j + 1];
    }
    forall b | b in rest ensures b.assetId != owned[0].assetId {
      var j :| 0 <= j < |rest| && rest[j] == b;
      assert owned[j + 1] == b;
    }
  }

  /** Recording an asset whose identifier the catalog does not hold changes
      nothing for that catalog. */
  lemma PendingIgnoresForeignEntry(owned: seq<AcquiredAsset>, ledger: seq<AcquiredAsset>,
                                   a: AcquiredAsset, x: seq<AcquiredAsset>)
    requires forall b :: b in owned ==> b.assetId != a.assetId
    ensures Pending(owned, ledger + ([a] + x)) == Pending(owned, ledger + x)
  {
    IdsAppend(ledger, x);
    IdsAppend([a], x);
    IdsAppend(ledger, [a] + x);
    assert Ids([a]) == [a.assetId];
    PendingSameMembership(owned, ledger + ([a] + x), ledger + x);
  }

  /** Resume: with distinct catalog identifiers, after recording the first
      `k` pending assets the next pending list is the rest, in order. */
  lemma {:induction false} PendingAfterPrefix(owned: seq<AcquiredAsset>, ledger: seq<AcquiredAsset>, k: nat)
    requires DistinctIds(owned)
    requires k <= |Pending(owned, ledger)|
    ensures Pending(owned, ledger + Pending(owned, ledger)[..k]) == Pending(owned, ledger)[k..]
  {
    var p := Pending(owned, ledger);
    if owned == [] {
      assert ledger + p[..k] == ledger;
    } else if k == 0 {
      assert ledger + p[..k] == ledger;
    } else {
      var a, rest := owned[0], owned[1..];
      DistinctTail(owned);
      if a.assetId in Ids(ledger) {
        IdsAppend(ledger, p[..k]);
        PendingAfterPrefix(rest, ledger, k);
      } else {
        var p' := Pending(rest, ledger);
        assert p[..k] == [a] + p'[..k - 1];
        IdsAppend(ledger, p[..k]);
        assert Ids(p[..k])[0] == a.assetId;
        PendingIgnoresForeignEntry(rest, ledger, a, p'[..k - 1]);
        PendingAfterPrefix(rest, ledger, k - 1);
        assert p[k..] == p'[k - 1..];
      }
    }
  }

  /** A run that completed leaves nothing to do: a second run over the same
      catalog downloads nothing and leaves the ledger as it is. */
  lemma RunIsIdempotent(owned: seq<AcquiredAsset>, config: Config, replies: AcquiredAsset -> AssetScript,
                        later: AcquiredAsset -> AssetScript)
    requires Run(owned, config, replies).loop.status.Completed?
    requires RecordsSucceed(Run(owned, config, replies).pending, 0, |Run(owned, config, replies).pending|, replies)
    ensures var after := Run(owned, config, replies).loop.file;
      && after.Stored?
      && Run(owned, after.config, later) == RunResult([], LoopResult(after, [], None, Completed))
  {
    RunRecordsPrefix(owned, config, replies);
    var p := Pending(owned, config.successfulDownloads);
    assert p[..|p|] == p;
    PendingOfRecordedIsEmpty(owned, config.successfulDownloads);
  }

  /** A run that stopped at pending position `k` resumes there: with
      distinct catalog identifiers, the next run's pending list is the
      stopped run's pending list from `k` on. */
  lemma RunResumesAtFailure(owned: seq<AcquiredAsset>, config: Config, replies: AcquiredAsset -> AssetScript,
                            later: AcquiredAsset -> AssetScript)
    requires DistinctIds(owned)
    requires !Run(owned, config, replies).loop.status.Completed?
    requires RecordsSucceed(Run(owned, config, replies).pending, 0, Run(owned, config, replies).loop.status.index, replies)
    ensures var r := Run(owned, config, replies);
      && r.loop.file.Stored?
      && Run(owned, r.loop.file.config, later).pending == r.pending[r.loop.status.index..]
  {
    var r := Run(owned, config, replies);
    StopIsFirstUnsaved(r.pending, 0, config.downloadsFolder, config, replies);
    RunRecordsPrefix(owned, config, replies);
    var k := FirstUnsaved(r.pending, 0, config.downloadsFolder, replies);
    PendingAfterPrefix(owned, config.successfulDownloads, k);
  }

  /** Identifiers in `x + y` are distinct when they are within each part and
      no identifier of `y` occurs in `x`. */
  lemma DistinctAppend(x: seq<AcquiredAsset>, y: seq<AcquiredAsset>)
    requires DistinctIds(x) && DistinctIds(y)
    requires forall b :: b in y ==> b.assetId !in Ids(x)
    ensures DistinctIds(x + y)
  {
    forall i, j | 0 <= i < j < |x + y| ensures (x + y)[i].assetId != (x + y)[j].assetId {
      if i < |x| && j >= |x| {
        assert (x + y)[j] in y;
        assert Ids(x)[i] == (x + y)[i].assetId;
      }
    }
  }

  /** The filter of a catalog without repeated identifiers has none either. */
  lemma {:induction false} PendingDistinct(owned: seq<AcquiredAsset>, ledger: seq<AcquiredAsset>)
    requires DistinctIds(owned)
    ensures DistinctIds(Pending(owned, ledger))
  {
    if owned != [] {
      var a, rest := owned[0], owned[1..];
      DistinctTail(owned);
      PendingDistinct(rest, ledger);
      PendingMembership(rest, ledger);
      if a.assetId !in Ids(ledger) {
        assert Ids([a]) == [a.assetId];
        DistinctAppend([a], Pending(rest, ledger));
      }
    }
  }

  /** No duplicate insertions: a ledger without repeated identifiers keeps
      that property through a run over a catalog without them. */
  lemma RunKeepsLedgerDistinct(owned: seq<AcquiredAsset>, config: Config, replies: AcquiredAsset -> AssetScript)
    requires DistinctIds(owned) && DistinctIds(config.successfulDownloads)
    requires RecordsSucceedUntilFailure(owned, config, replies)
    ensures var after := Run(owned, config, replies).loop.file;
      after.Stored? && DistinctIds(after.config.successfulDownloads)
  {
    RunRecordsPrefix(owned, config, replies);
    var r := Run(owned, config, replies);
    var k := FirstUnsaved(r.pending, 0, config.downloadsFolder, replies);
    PendingDistinct(owned, config.successfulDownloads);
    PendingMembership(owned, config.successfulDownloads);
    var done := r.pending[..k];
    assert DistinctIds(done) by {
      forall i, j | 0 <= i < j < |done| ensures done[i].assetId != done[j].assetId {
        assert done[i] == r.pending[i] && done[j] == r.pending[j];
      }
    }
    forall b | b in done ensures b.assetId !in Ids(config.successfulDownloads) {
      var j :| 0 <= j < |done| && done[j] == b;
      assert b == r.pending[j];
    }
    DistinctAppend(config.successfulDownloads, done);
  }

  /** An asset whose rewrite did not succeed is not among the entries a loop
      added, nor is any other asset with its identifier. */
  lemma UnrecordedNotAdded(entries: seq<AcquiredAsset>, n: nat, pending: seq<AcquiredAsset>, folder: string,
                           saved: seq<string>, replies: AcquiredAsset -> AssetScript, a: AcquiredAsset)
    requires n <= |entries| && DistinctIds(pending) && a in pending && replies(a).record != WriteOk
    requires NewEntriesSaved(entries, n, pending, 0, folder, saved, replies)
    ensures a.assetId !in Ids(entries[n..])
  {
    var added := entries[n..];
    assert pending[0..] == pending;
    forall j | 0 <= j < |added| ensures Ids(added)[j] != a.assetId {
      var e := added[j];
      assert e in added;
      DistinctIdsDiffer(pending, e, a);
    }
  }

  /** A swallowed rewrite error loses the entry: with distinct catalog
      identifiers, a pending asset whose rewrite did not succeed is absent
      from a readable ledger after the run, and the next run has it pending
      again. */
  lemma UnrecordedDownloadStaysPending(owned: seq<AcquiredAsset>, config: Config, replies: AcquiredAsset -> AssetScript,
                                       later: AcquiredAsset -> AssetScript, a: AcquiredAsset)
    requires DistinctIds(owned)
    requires a in Run(owned, config, replies).pending
    requires replies(a).record != WriteOk
    ensures var after := Run(owned, config, replies).loop.file;
      after.Stored? ==>
        && a.assetId !in Ids(after.config.successfulDownloads)
        && a in Run(owned, after.config, later).pending
  {
    var r := Run(owned, config, replies);
    var before := config.successfulDownloads;
    DownloadFromOnlyAppends(r.pending, 0, config.downloadsFolder, config, replies);
    PendingMembership(owned, before);
    PendingDistinct(owned, before);
    if r.loop.file.Stored? {
      var now := r.loop.file.config.successfulDownloads;
      assert now == before + now[|before|..];
      IdsAppend(before, now[|before|..]);
      UnrecordedNotAdded(now, |before|, r.pending, config.downloadsFolder, r.loop.saved, replies, a);
      PendingMembership(owned, now);
    }
  }
}

=== FILE: scenario.dfy ===
/** A worked example: an empty ledger with downloads folder `/tmp/out`, a
    catalog A1, A2, A3, a download that succeeds for A1 and gets an empty
    payload for A2. */
module Scenario {
  import opened Wrappers
  import opened Assets
  import opened Ledger
  import opened Download
  import opened Reconcile

  const A1 := AcquiredAsset("A1", 8, "")
  const A2 := AcquiredAsset("A2", 8, "")
  const A3 := AcquiredAsset("A3", 8, "")

  /** Every download posts its manifest and gets an identifier back; A1's
      payload has three bytes and is written whole, every other payload is
      an empty 200 body. Every ledger rewrite succeeds. */
  function Replies(a: AcquiredAsset): (r: AssetScript)
  {
    var manifest := ManifestResponse(200, ManifestId("dl-" + a.assetId));
    if a.assetId == "A1" then
      AssetScript(DownloadScript(manifest, PayloadResponse(200, PayloadBytes([1, 2, 3])), Wrote(3)), WriteOk)
    else
      AssetScript(DownloadScript(manifest, PayloadResponse(200, PayloadBytes([])), Wrote(0)), WriteOk)
  }

  lemma ExamplePending()
    ensures Pending([A1, A2, A3], []) == [A1, A2, A3]
  {
    var owned := [A1, A2, A3];
    assert Ids([]) == [];
    assert owned[1..] == [A2, A3] && [A2, A3][1..] == [A3] && [A3][1..] == [];
    assert Pending([A3], []) == [A3];
    assert Pending([A2, A3], []) == [A2, A3];
  }

  lemma ExampleDownloads()
    ensures Downloads(A1, "/tmp/out", Replies)
    ensures DownloadAsset(A2, "/tmp/out", Replies(A2).download).outcome == Failed(EmptyPayload)
  {
    var d1 := DownloadAsset(A1, "/tmp/out", Replies(A1).download);
    assert RequestDownload(Replies(A1).download.payload) == Wrappers.Success([1, 2, 3]);
    assert RequestDownload(Replies(A2).download.payload) == Wrappers.Failure(EmptyPayload);
  }

  lemma ExampleFirstFailure()
    ensures FirstUnsaved([A1, A2, A3], 0, "/tmp/out", Replies) == 1
  {
    ExampleDownloads();
  }

  /** The run stops at A2; the ledger holds A1 only, and only
      `/tmp/out/A1.zip` was written: A2 fails before its create, so no
      incomplete archive is left. */
  lemma ExampleRun()
    ensures var r := Run([A1, A2, A3], Config("/tmp/out", []), Replies);
      && r.pending == [A1, A2, A3]
      && r.loop.status == AbortedAt(1, DownloadFailed(EmptyPayload))
      && r.loop.file == Stored(Config("/tmp/out", [A1]))
      && r.loop.saved == ["/tmp/out/A1.zip"]
      && r.loop.partial == None
  {
    var owned := [A1, A2, A3];
    ExamplePending();
    ExampleFirstFailure();
    RunRecordsPrefix(owned, Config("/tmp/out", []), Replies);
    assert owned[..1] == [A1];
    assert OutputPaths("/tmp/out", [A1]) == [OutputPath("/tmp/out", "A1")];
    assert OutputPath("/tmp/out", "A1") == "/tmp/out/A1.zip";
    var ledger := Stored(Config("/tmp/out", [A1]));
    assert DownloadFrom(owned, 1, "/tmp/out", ledger, Replies)
        == LoopResult(ledger, [], None, AbortedAt(1, DownloadFailed(EmptyPayload)));
    DownloadFromSaved(owned, 0, "/tmp/out", Stored(Config("/tmp/out", [])), Replies);
  }

  /** The next run over the same catalog has A2, A3 pending. */
  lemma ExampleResume(later: AcquiredAsset -> AssetScript)
    ensures Run([A1, A2, A3], Config("/tmp/out", [A1]), later).pending == [A2, A3]
  {
    var owned := [A1, A2, A3];
    ExampleRun();
    assert DistinctIds(owned);
    RunResumesAtFailure(owned, Config("/tmp/out", []), Replies, later);
    assert owned[1..] == [A2, A3];
  }
}

=== FILE: wrappers.dfy ===
/** Failure-carrying result types shared by the model. */
module Wrappers {

  /** A value that may be absent, in place of a nil pointer. */
  datatype Option<+T> = None | Some(value: T)

  /** A value or the error that prevented it, in place of a `(*T, error)` pair. */
  datatype Result<+T, +E> = Success(value: T) | Failure(error: E)

  /** A step that either passes or fails with an error and carries no value. */
  datatype Outcome<+E> = Pass | Fail(error: E)
}
